=== FILE: README.md ===
# roadtemp: a Dafny model of the `TempManager` registry

roadtemp creates and tracks temporary files and directories. Its `TempManager`
keeps a registry from path to a `TempFileInfo(path, created, expires,
auto_delete)` record. It adds records through `create_file` and `create_dir`,
returns a shallow copy of them through `list`, and reclaims them through
`cleanup(force)`. A cleanup pass selects an entry when `force` is set, or when
its expiry has strictly passed, or when `auto_cleanup` is on and its age
strictly exceeds `max_age`. The pass drops every selected entry from the
registry, whether or not its removal from disk succeeds, and returns the
number of removals that raised nothing. Leaving a manager's `with` block
(`__exit__`) runs a forced pass and discards its count. The model also covers
the open/closed state of a `TempFile` handle, whose `write`, `read` and
`close` do nothing when no stream is open.

The model is functional. A manager is an immutable value (`Registry.Manager`)
holding `map<Path, Info>`, and each operation returns the new manager. Three
things become parameters:

- Time is an integer clock in microseconds (the resolution of `datetime`),
  counted from `datetime.min`. A reading is an `Instant`, limited to the range
  `datetime` can represent. Each `datetime.now()` call becomes a clock
  argument: the two creates read it twice, once for the expiry and once for
  `created`. A ttl that puts the expiry outside that range makes the create
  raise, as `OverflowError` does in the source.
- The filesystem is an oracle. `Sweep.FileSystem` maps a path to a
  `RegularFile` or a `Directory`, each saying whether `unlink` or `rmtree`
  would raise there. A path absent from the map is neither, and its removal
  raises nothing. The creates take a boolean that says whether
  `touch`/`mkdir` succeeded.
- The random `uuid4().hex` part of a name is a `token` argument.

Modules: `Common` (option, result, paths, clock unit), `Registry` (records,
construction, creation, listing), `Sweep` (the cleanup policy and pass),
`Lifecycle` (properties that span several operations) and `FileHandle` (the
`TempFile` stream state).

Two details of the code shape the model:

- `if ttl` is false for 0, so `create_file(ttl=0)` records no expiry, and the
  file never expires by ttl (`Lifecycle.ZeroTtlNeverExpires`).
- A selected path that is neither a file nor a directory falls through to
  `count += 1`, so it is counted as a successful removal (`Sweep.Cleanup`,
  through `Sweep.RemovalRaises`).

The source's default arguments (`auto_cleanup=True`, `max_age=3600`,
`suffix=""`, `prefix=""`, `ttl=None`, `force=False`) are Dafny default
parameter values of `NewManager`, `CreateFile`, `CreateDir`, `Cleanup` and
`CleanupPass`. They come after the required arguments, including the model's
oracle and clock arguments.

## Model

| member | source | states |
|---|---|---|
| `Registry.Register` | src/roadtemp/temp.py:161-162 | After registration the path maps to a record for itself with the given creation reading, expiry and auto-delete set; every other key keeps its presence and record; the registry grows by one when the path was fresh; well-formedness is preserved. |
| `Registry.CreateFile` | src/roadtemp/temp.py:156-163 | `create_file` succeeds exactly when the file can be created and the ttl's expiry is a representable `datetime`. On success the new `prefix + token + suffix` path is tracked with `created` equal to the second clock reading and an expiry of none for a missing or zero ttl, else the first reading plus ttl seconds; every other entry is untouched, and the registry grows by one for a fresh name. Otherwise it raises the filesystem error for that path, or, once the path exists, the overflow error, leaving the path untracked. |
| `Registry.CreateDir` | src/roadtemp/temp.py:165-172 | `create_dir` states the same as `CreateFile` for a directory named `prefix + token`, with success requiring `mkdir` to succeed. |
| `Registry.ListEntries` | src/roadtemp/temp.py:201-203 | `list()` returns one record per key, every element is a registry value, every key's record appears, and in a well-formed registry no path appears twice. |
| `Sweep.Cleanup` | src/roadtemp/temp.py:174-199 | After a pass the registry holds exactly the entries that are not eligible, each with its record unchanged. The count is the number of eligible entries whose removal raised nothing, including paths that are neither file nor directory. The count is at most the number of entries evicted. Base directory, policy and well-formedness are kept. |
| `Sweep.SelectEvicted` | src/roadtemp/temp.py:178-188 | The first loop collects exactly the keys whose records pass one of the three tests (force; expiry strictly passed; age strictly over `max_age` with `auto_cleanup`). |
| `Sweep.EvictAll` | src/roadtemp/temp.py:189-198 | The second loop pops every selected key, whether or not its removal raises. It counts exactly the selected keys whose removal raised nothing. |
| `Sweep.CleanupPass` | src/roadtemp/temp.py:174-199 | The two loops together keep exactly the non-eligible entries, unchanged, and return the number of successful removals. The result equals `Sweep.Cleanup`. |
| `Sweep.Exit` | src/roadtemp/temp.py:208-209 | Teardown runs `cleanup(force=True)` and leaves the registry empty. `__exit__` returns `None`; the count is the discarded result of that inner pass, namely the tracked entries whose removal raised nothing, at most the number of entries. |
| `Lifecycle.EligibleStaysEligible` | src/roadtemp/temp.py:180-186 | An entry eligible at one clock reading is eligible at every later one, so an entry that a pass skipped only because the pass ran too early is selected by every later pass. |
| `Lifecycle.ForcedCleanupTwice` | src/roadtemp/temp.py:180 | A forced pass empties the registry and counts every entry whose removal raised nothing. A second forced pass, at any clock and against any filesystem, returns 0 and leaves the same empty manager. |
| `Lifecycle.CleanupIdempotent` | src/roadtemp/temp.py:177-199 | A second non-forced pass at the same clock evicts nothing and returns 0. |
| `Lifecycle.KeptWithoutPolicy` | src/roadtemp/temp.py:181-186 | With `auto_cleanup` off, an entry without an expiry survives every non-forced pass unchanged, whatever its age. |
| `Lifecycle.ZeroTtlNeverExpires` | src/roadtemp/temp.py:156-163 | A file created with `ttl=0` has no expiry. With `auto_cleanup` off, no non-forced pass at any clock evicts it. |
| `Lifecycle.TtlExpires` | src/roadtemp/temp.py:160-188 | A file created with a non-zero ttl whose expiry is representable is evicted by a non-forced pass strictly after that expiry, and counted exactly when its removal raises nothing. |
| `Lifecycle.TtlOutOfRangeFails` | src/roadtemp/temp.py:156-172 | A create whose ttl puts the expiry outside the `datetime` range raises the overflow error after the path exists, and registers nothing, so the path stays on disk untracked. |
| `Lifecycle.NewManagerSweepsNothing` | src/roadtemp/temp.py:148-154 | A freshly constructed manager has the given policy, and any pass over it (at any clock, forced or not, on any filesystem), and its teardown, returns 0 and leaves it unchanged. |
| `Lifecycle.MaxAgeEviction` | src/roadtemp/temp.py:183-186 | With `auto_cleanup` on, an entry strictly older than `max_age` is evicted. An entry exactly `max_age` old whose expiry has not strictly passed is kept. |
| `Lifecycle.CleanupIgnoresFreshIneligible` | src/roadtemp/temp.py:161-199 | Registering a fresh entry that a pass would not select leaves that pass's count unchanged, and the entry survives the pass. |
| `Lifecycle.ExampleUsage` | src/roadtemp/temp.py:255-261 | In a default manager with `max_age=60`, a `.log` file with ttl 30 and a `cache_` directory with no ttl are the only two entries, the file expiring 30 seconds after its expiry reading and the directory never; the closing `cleanup(force=True)` empties the registry and returns 2 when neither removal raises. |
| `FileHandle.Create` | src/roadtemp/temp.py:46-53 | After `create()` the handle is named by the new path, reads as empty, and a read after any write returns exactly the data written, whose length the write reports. |
| `FileHandle.Write` | src/roadtemp/temp.py:70-73 | On an open handle a write keeps it open under the same name, a later read returns the old content followed by the data, and the data's length is returned; with no open stream it changes nothing and returns 0. |
| `FileHandle.Close` | src/roadtemp/temp.py:81-84 | After `close()` no stream is open, reads are empty, every write is a no-op returning 0, the name is kept, an open handle becomes closed, and any other handle is unchanged. |
| `FileHandle.ReadAfterWrites` | src/roadtemp/temp.py:70-79 | After any run of writes on an open handle, a read returns the earlier content followed by every chunk in order. The reported total equals the length of what was appended. |
| `FileHandle.NoStreamNoEffect` | src/roadtemp/temp.py:70-79 | Before `create()` or after `close()`, any run of writes leaves the handle unchanged and reports 0, and a read is empty. |
| `FileHandle.CloseIsFinal` | src/roadtemp/temp.py:81-84 | `close()` is idempotent. Once closed, writes report 0, reads are empty, and the name is kept. |

## Left out

- Filesystem effects (`touch`, `mkdir`, `unlink`, `shutil.rmtree`, `is_file`, `is_dir`, `mkstemp`, `mkdtemp`, `gettempdir`). They are OS calls, so they appear only as oracle arguments.
- Sweep.Cleanup: the filesystem oracle is fixed for the whole pass. The model does not track that one removal (an `rmtree` of a directory) may change what a later removal in the same pass finds at a nested path.
- Registry.CreateFile and Registry.CreateDir: the model's `ExpiryOutOfRange` carries no path, as the `OverflowError` does not. The caller cannot learn which path was left on disk untracked.
- `uuid.uuid4` name generation is a random foreign call. Its token is an argument, and freshness appears only as a hypothesis (`path !in files`). A repeated path overwrites its record, as the dictionary assignment does.
- `datetime.now` and `timedelta.total_seconds`. The clock is an integer number of microseconds, and every reading is taken to be a representable `datetime`, as `datetime.now()` always is. The float rounding of `total_seconds()` before the comparison with `max_age` is not modelled: the comparison is exact.
- `threading.Lock`: each manager operation is one atomic step, and concurrent interleavings are not modelled.
- Path normalisation: `Path` joining (temp.py:158, :167) is modelled as `Common.Join`, that is `base + "/" + name`, without what `pathlib`'s `/` does to the name. It collapses repeated separators, drops `.` components and a trailing `/`, and discards the base when the name is absolute. So the model's key differs from the source's `str(path)` when the prefix or suffix is absolute, contains a `.` path component (as in `x/./y`, not a dot inside a name like `.log`) or a doubled `/`, or ends in `/`. For instance, `create_dir(prefix="/srv/cache_")` tracks `/srv/cache_<hex>` outside the base directory, where the model tracks `<base>//srv/cache_<hex>`. `Common.JoinInjective` is a fact about `Join`, not about `pathlib`, which maps `x`, `x/` and `./x` to one path. For a prefix and suffix with no `/` in them, both give the same key, since the hex token keeps the name from being empty or `.`.
- Registry.ListEntries: the returned list is new, but its elements are the registry's own mutable `TempFileInfo` objects. A caller that changes one (say, resets `expires` or reassigns `path`) changes what the next `cleanup` reads, and a reassigned `path` breaks `Registry.WellFormed`. The model treats records as values, so such mutation is not modelled, and the frame clauses of every operation and `WellFormed` assume none happens.
- Registry.ListEntries: the order of the snapshot is not stated. Python returns dictionary insertion order; the model's map is unordered.
- FileHandle.Create: the handle's `prefix`/`suffix`/`dir` naming and a failing `mkstemp` are not modelled. The new path is an argument, and only successful creation is modelled.
- FileHandle.Write: errors raised by the stream itself (an `OSError` from a failed write or flush, such as a full disk) are not modelled; an open handle always accepts the whole write.
- FileHandle.Close: a `close()` that raises (a failed final flush) is not modelled. In the source that leaves `_file` set to a closed stream, so a later `write` raises `ValueError` instead of returning 0; the model always reaches the closed state.
- FileHandle.Read: an `OSError` raised by `seek` or `read` on the stream is not modelled.
- FileHandle.Write: text-mode newline translation and encoding are not modelled. Writing `bytes` to a text handle (or `str` to a binary one) raises in Python; the type parameter rules it out.
- `TempFile._cleanup`/`__exit__`/`__enter__`, the `TempDir` class (`create`, `file`, `subdir`, `cleanup`), and the `temp_file`/`temp_dir` context managers. Besides `TempFile.__enter__` calling `create()` and `TempFile.__exit__` calling `close()` (modelled as `FileHandle.Create` and `FileHandle.Close`), their only effects are filesystem calls and `atexit` registration.
- `mktemp`, `mkstemp`, `mkdtemp`, `gettempdir`: pass-throughs to `tempfile`.
- `atexit` registration and `logging` of cleanup failures. These are process hooks and a side channel; a failed removal simply goes uncounted.
- `example_usage` prints and uses real files. Only its manager part (lines 255-261) is stated, as `Lifecycle.ExampleUsage`.

=== FILE: common.dfy ===
/** Shared vocabulary of the roadtemp model: optional values, results,
    paths and the integer clock. */
module Common {

  /** Python's `Optional[...]`: `None` or a present value. */
  datatype Option<+T> = None | Some(value: T)

  /** An operation that either returns a value or raises an error to its caller. */
  datatype Result<+T, +E> = Success(value: T) | Failure(error: E)

  /** A filesystem path in its string form (`str(path)`), which is also the
      registry key. */
  type Path = string

  /** The clock counts microseconds, the resolution of `datetime`; ttl and
      max_age are given in whole seconds. */
  const MicrosPerSecond: int := 1_000_000

  /** `datetime.max - datetime.min` in microseconds: from 0001-01-01 00:00:00
      to 9999-12-31 23:59:59.999999. */
  const MaxInstant: int := 315_537_897_599_999_999

  /** A reading `datetime` can represent, counted in microseconds from
      `datetime.min`. A value outside this range raises `OverflowError`. */
  type Instant = t: int | 0 <= t <= MaxInstant

  /** `base / name` for a single-component name. */
  function Join(base: Path, name: string): (p: Path)
  {
    base + "/" + name
  }

  /** Distinct names under one base give distinct paths. */
  lemma JoinInjective(base: Path, a: string, b: string)
    requires a != b
    ensures Join(base, a) != Join(base, b)
  {
    assert Join(base, a)[|base| + 1..] == a;
    assert Join(base, b)[|base| + 1..] == b;
  }
}

=== FILE: handle.dfy ===
/** The `TempFile` handle as a three-state machine over its `_file` stream.
    The type parameter `T` is the stream's unit: `char` for a handle opened
    in text mode (`"w+"`), a byte for binary mode (`"wb+"`), so an empty read
    is `""` or `b""` according to the mode.

    Within one open stream the position is always at the end of the content:
    a write moves it to the end of what it wrote, and a read seeks to 0 and
    then reads to the end. So every write appends, and a read returns the
    whole content. */
module FileHandle {
  import opened Common

  datatype Handle<T> =
    | Uncreated                          // before `create()`: no path, no stream
    | Open(path: Path, content: seq<T>)  // `_file` is an open stream
    | Closed(path: Path)                 // after `close()`: the path stays, `_file` is None

  /** `create()`: `mkstemp` makes a new empty file at `path` and the handle
      opens it. Whatever stream the handle held before is abandoned. After
      it the handle is named by `path`, reads as empty, and a read after a
      write returns exactly what was written. */
  function Create<T(!new)>(h: Handle<T>, path: Path): (h': Handle<T>)
    ensures Name(h') == path && Read(h') == []
    ensures forall data: seq<T> :: Read(Write(h', data).0) == data && Write(h', data).1 == |data|
  {
    Open(path, [])
  }

  /** `write(data)`: with an open stream, a later read sees the old content
      followed by `data`, the stream stays open on the same path, and the
      length of `data` is returned; with no open stream, a no-op returning 0. */
  function Write<T>(h: Handle<T>, data: seq<T>): (r: (Handle<T>, nat))
    ensures h.Open? ==> r.0.Open? && Name(r.0) == Name(h) && Read(r.0) == Read(h) + data && r.1 == |data|
    ensures !h.Open? ==> r.0 == h && r.1 == 0
  {
    match h
    case Open(p, c) => (Open(p, c + data), |data|)
    case _ => (h, 0)
  }

  /** `read()`: the full content from position zero, or empty when no stream
      is open. Reading leaves the content as it was. */
  function Read<T>(h: Handle<T>): (r: seq<T>)
    ensures h.Open? ==> r == h.content
    ensures !h.Open? ==> r == []
  {
    if h.Open? then h.content else []
  }

  /** `close()`: drop the stream and keep the path; with no stream, nothing.
      Afterwards reads are empty, writes are no-ops and the name is kept. */
  function Close<T(!new)>(h: Handle<T>): (h': Handle<T>)
    ensures !h'.Open? && Read(h') == [] && Name(h') == Name(h)
    ensures forall data: seq<T> :: Write(h', data) == (h', 0)
    ensures h.Open? ==> h'.Closed?
    ensures !h.Open? ==> h' == h
  {
    if h.Open? then Closed(h.path) else h
  }

  /** `name`: the path as a string, or `""` before `create()`. */
  function Name<T>(h: Handle<T>): (s: string)
    ensures h.Uncreated? ==> s == ""
    ensures h.Open? || h.Closed? ==> s == h.path
  {
    match h
    case Uncreated => ""
    case Open(p, _) => p
    case Closed(p) => p
  }

  /** Write the chunks in order, returning the handle and the units written. */
  function WriteAll<T>(h: Handle<T>, chunks: seq<seq<T>>): (r: (Handle<T>, nat))
    decreases |chunks|
  {
    if chunks == [] then (h, 0)
    else
      var (h1, n1) := Write(h, chunks[0]);
      var (h2, n2) := WriteAll(h1, chunks[1..]);
      (h2, n1 + n2)
  }

  /** The chunks joined end to end, in order. */
  function Concat<T>(chunks: seq<seq<T>>): (s: seq<T>)
    decreases |chunks|
  {
    if chunks == [] then [] else chunks[0] + Concat(chunks[1..])
  }

  /** A read after any run of writes on an open handle returns the earlier
      content followed by every chunk in order, and the reported total is the
      length of what was appended. */
  lemma {:induction false} ReadAfterWrites<T>(h: Handle<T>, chunks: seq<seq<T>>)
    requires h.Open?
    ensures WriteAll(h, chunks).0.Open? && WriteAll(h, chunks).0.path == h.path
    ensures Read(WriteAll(h, chunks).0) == Read(h) + Concat(chunks)
    ensures WriteAll(h, chunks).1 == |Concat(chunks)|
    decreases |chunks|
  {
    if chunks != [] {
      var h1 := Write(h, chunks[0]).0;
      ReadAfterWrites(h1, chunks[1..]);
      assert Read(h) + chunks[0] + Concat(chunks[1..]) == Read(h) + Concat(chunks);
    }
  }

  /** With no open stream, before `create()` or after `close()`, any run of
      writes changes nothing and reports 0, and a read is empty. */
  lemma {:induction false} NoStreamNoEffect<T>(h: Handle<T>, chunks: seq<seq<T>>)
    requires !h.Open?
    ensures WriteAll(h, chunks) == (h, 0)
    ensures Read(h) == []
    decreases |chunks|
  {
    if chunks != [] {
      NoStreamNoEffect(h, chunks[1..]);
    }
  }

  /** `close()` is idempotent, and after it the handle is inert: writes
      report 0 and reads are empty, but the path is kept. */
  lemma CloseIsFinal<T(!new)>(h: Handle<T>, data: seq<T>)
    ensures Close(Close(h)) == Close(h)
    ensures Write(Close(h), data) == (Close(h), 0)
    ensures Read(Close(h)) == []
    ensures Name(Close(h)) == Name(h)
  {
  }
}

=== FILE: lifecycle.dfy ===
/** Properties that relate several manager operations: creation followed by
    cleanup, cleanup followed by cleanup, and the teardown of a manager. */
module Lifecycle {
  import opened Common
  import opened Registry
  import opened Sweep

  /** Once eligible, always eligible: an entry a pass skipped only because
      it ran too early is selected by every later pass. */
  lemma EligibleStaysEligible(c: Config, now: Instant, later: Instant, force: bool, info: Info)
    requires now <= later
    requires Eligible(c, now, force, info)
    ensures Eligible(c, later, force, info)
  {
  }

  /** A forced pass empties the registry and counts every entry whose
      removal raises nothing; a second forced pass then finds nothing,
      returns 0 and leaves the registry empty. */
  lemma ForcedCleanupTwice(m: Manager, now: Instant, later: Instant, fs: FileSystem, fs': FileSystem)
    ensures Cleanup(m, now, fs, true).manager.files == map[]
    ensures Cleanup(m, now, fs, true).count == |set k | k in m.files && !RemovalRaises(fs, m.files[k].path)|
    ensures Cleanup(Cleanup(m, now, fs, true).manager, later, fs', true).count == 0
    ensures Cleanup(Cleanup(m, now, fs, true).manager, later, fs', true).manager.files == map[]
  {
    var first := Cleanup(m, now, fs, true);
    assert Reclaimed(m, now, true, fs) == set k | k in m.files && !RemovalRaises(fs, m.files[k].path);
    assert Reclaimed(first.manager, later, true, fs') == {};
  }

  /** A non-forced pass repeated at the same clock evicts nothing more and
      returns 0: whatever survived the first pass is not eligible. */
  lemma CleanupIdempotent(m: Manager, now: Instant, fs: FileSystem, fs': FileSystem)
    ensures Cleanup(Cleanup(m, now, fs, false).manager, now, fs', false) ==
              Swept(Cleanup(m, now, fs, false).manager, 0)
  {
    var kept := Cleanup(m, now, fs, false).manager;
    assert Evicted(kept, now, false) == {};
    assert Reclaimed(kept, now, false, fs') == {};
    assert kept.files - {} == kept.files;
  }

  /** Without `auto_cleanup`, an entry that has no expiry survives every
      non-forced pass unchanged, whatever its age. */
  lemma KeptWithoutPolicy(m: Manager, now: Instant, fs: FileSystem, k: Path)
    requires k in m.files && m.files[k].expires.None?
    requires !m.config.autoCleanup
    ensures k in Cleanup(m, now, fs, false).manager.files
    ensures Cleanup(m, now, fs, false).manager.files[k] == m.files[k]
  {
  }

  /** A file created with a ttl of 0 gets no expiry (the truthiness test), so
      without `auto_cleanup` no non-forced pass at any clock evicts it. */
  lemma ZeroTtlNeverExpires(m: Manager, suffix: string, prefix: string, token: string,
                            tExpiry: Instant, tCreated: Instant, now: Instant, fs: FileSystem)
    requires !m.config.autoCleanup
    ensures var r := CreateFile(m, token, true, tExpiry, tCreated, suffix, prefix, Some(0));
            r.Success? && r.value.manager.files[r.value.path].expires.None? &&
            r.value.path in Cleanup(r.value.manager, now, fs, false).manager.files
  {
    var r := CreateFile(m, token, true, tExpiry, tCreated, suffix, prefix, Some(0));
    KeptWithoutPolicy(r.value.manager, now, fs, r.value.path);
  }

  /** A file created with a non-zero ttl is evicted by any non-forced
      pass whose clock is strictly past `tExpiry + ttl`, and counted exactly
      when its removal raises nothing. */
  lemma TtlExpires(m: Manager, suffix: string, prefix: string, ttl: int, token: string,
                   tExpiry: Instant, tCreated: Instant, now: Instant, fs: FileSystem)
    requires ttl != 0
    requires 0 <= tExpiry + ttl * MicrosPerSecond <= MaxInstant
    requires now > tExpiry + ttl * MicrosPerSecond
    ensures var r := CreateFile(m, token, true, tExpiry, tCreated, suffix, prefix, Some(ttl));
            r.Success? &&
            r.value.path !in Cleanup(r.value.manager, now, fs, false).manager.files &&
            (r.value.path in Reclaimed(r.value.manager, now, false, fs) <==> !RemovalRaises(fs, r.value.path))
  {
  }

  /** A ttl whose expiry is not a representable `datetime` makes either
      create raise the overflow error after the path exists: nothing is
      registered, so the path is left on disk untracked. */
  lemma TtlOutOfRangeFails(m: Manager, suffix: string, prefix: string, ttl: int, token: string,
                           tExpiry: Instant, tCreated: Instant)
    requires tExpiry + ttl * MicrosPerSecond > MaxInstant || tExpiry + ttl * MicrosPerSecond < 0
    ensures CreateFile(m, token, true, tExpiry, tCreated, suffix, prefix, Some(ttl)) ==
              Failure(ExpiryOutOfRange)
    ensures CreateDir(m, token, true, tExpiry, tCreated, prefix, Some(ttl)) ==
              Failure(ExpiryOutOfRange)
  {
  }

  /** With `auto_cleanup`, an entry strictly older than `max_age` seconds is
      evicted by a non-forced pass; one exactly `max_age` old with no expiry
      reached is kept. */
  lemma MaxAgeEviction(m: Manager, now: Instant, fs: FileSystem, k: Path)
    requires m.config.autoCleanup && k in m.files
    ensures now - m.files[k].created > m.config.maxAge * MicrosPerSecond ==>
              k !in Cleanup(m, now, fs, false).manager.files
    ensures now - m.files[k].created == m.config.maxAge * MicrosPerSecond &&
            (m.files[k].expires.None? || now <= m.files[k].expires.value) ==>
              k in Cleanup(m, now, fs, false).manager.files
  {
  }

  /** A freshly constructed manager tracks nothing: whatever the clock,
      force flag or filesystem, a pass over it returns 0 and leaves it as it
      was, and teardown does the same. */
  lemma NewManagerSweepsNothing(baseDir: Option<Path>, systemTemp: Path, autoCleanup: bool, maxAge: int,
                                now: Instant, force: bool, fs: FileSystem)
    ensures var m := NewManager(baseDir, systemTemp, autoCleanup, maxAge, true);
            && m.Success?
            && m.value.config == Config(autoCleanup, maxAge)
            && Cleanup(m.value, now, fs, force) == Swept(m.value, 0)
            && Exit(m.value, now, fs) == Swept(m.value, 0)
  {
    var m := NewManager(baseDir, systemTemp, autoCleanup, maxAge, true).value;
    assert Reclaimed(m, now, force, fs) == {};
    assert Reclaimed(m, now, true, fs) == {};
  }

  /** A pass commutes with registering a fresh entry that the pass would not
      select: the new entry is kept and the count is unaffected. */
  lemma CleanupIgnoresFreshIneligible(m: Manager, path: Path, expires: Option<Instant>, created: Instant,
                                      now: Instant, fs: FileSystem)
    requires path !in m.files
    requires !Eligible(m.config, now, false, Info(path, created, expires, true))
    ensures Cleanup(Register(m, path, expires, created), now, fs, false).count == Cleanup(m, now, fs, false).count
    ensures path in Cleanup(Register(m, path, expires, created), now, fs, false).manager.files
  {
    var m' := Register(m, path, expires, created);
    assert Evicted(m', now, false) == Evicted(m, now, false);
    assert Reclaimed(m', now, false, fs) == Reclaimed(m, now, false, fs);
  }

  /** The manager scenario of the module's usage example: a default manager
      with `max_age` 60; a `.log` file with ttl 30 and a `cache_` directory
      with no ttl are both tracked, the file expiring 30 seconds after its
      expiry reading and the directory never; the closing
      `cleanup(force=True)` removes both, counts 2 when neither removal
      raises, and leaves the registry empty. */
  lemma ExampleUsage(systemTemp: Path, fileToken: string, dirToken: string,
                     t1: Instant, t2: Instant, t3: Instant, t4: Instant, now: Instant, fs: FileSystem)
    requires t1 + 30 * MicrosPerSecond <= MaxInstant
    requires fileToken + ".log" != "cache_" + dirToken
    requires !RemovalRaises(fs, Join(Join(systemTemp, "roadtemp"), fileToken + ".log"))
    requires !RemovalRaises(fs, Join(Join(systemTemp, "roadtemp"), "cache_" + dirToken))
    ensures var m := NewManager(None, systemTemp, maxAge := 60).value;
            var f := CreateFile(m, suffix := ".log", ttl := Some(30), token := fileToken, touchOk := true,
                                tExpiry := t1, tCreated := t2).value;
            var d := CreateDir(f.manager, prefix := "cache_", token := dirToken, mkdirOk := true,
                               tExpiry := t3, tCreated := t4).value;
            && d.manager.files.Keys == {f.path, d.path}
            && |d.manager.files| == 2
            && d.manager.files[f.path].expires == Some(t1 + 30 * MicrosPerSecond)
            && d.manager.files[d.path].expires == None
            && Cleanup(d.manager, now, fs, force := true).count == 2
            && Cleanup(d.manager, now, fs, force := true).manager.files == map[]
  {
    var m := NewManager(None, systemTemp, maxAge := 60).value;
    var f := CreateFile(m, suffix := ".log", ttl := Some(30), token := fileToken, touchOk := true,
                        tExpiry := t1, tCreated := t2).value;
    var d := CreateDir(f.manager, prefix := "cache_", token := dirToken, mkdirOk := true,
                       tExpiry := t3, tCreated := t4).value;
    assert "" + fileToken + ".log" == fileToken + ".log";
    JoinInjective(m.baseDir, fileToken + ".log", "cache_" + dirToken);
    assert d.manager.files.Keys == {f.path, d.path};
    assert d.manager.files[f.path].path == f.path && d.manager.files[d.path].path == d.path;
    assert Evicted(d.manager, now, true) == {f.path, d.path};
    assert Reclaimed(d.manager, now, true, fs) == {f.path, d.path};
  }
}

=== FILE: registry.dfy ===
/** The `TempManager` registry: a map from path key to the lifetime record of
    each temporary file or directory the manager created, and the operations
    that add to it (`create_file`, `create_dir`) or read it (`list`).
    The registry is a value; an operation returns the new manager. */
module Registry {
  import opened Common

  /** `TempFileInfo`: the tracked path, the clock reading at registration,
      the optional expiry reading, and the (always true) auto-delete flag. */
  datatype Info = Info(path: Path, created: Instant, expires: Option<Instant>, autoDelete: bool)

  /** Manager-wide cleanup policy, fixed at construction. `maxAge` is in seconds. */
  datatype Config = Config(autoCleanup: bool, maxAge: int)

  /** A manager: its base directory, its policy and the registry `_files`. */
  datatype Manager = Manager(baseDir: Path, config: Config, files: map<Path, Info>)

  /** What a successful create returns: the updated manager and the new path. */
  datatype Created = Created(manager: Manager, path: Path)

  /** Why a create raises to its caller. `FsRefused`: the filesystem would not
      create `path` (`touch`/`mkdir` raised, and the `OSError` names it).
      `ExpiryOutOfRange`: the path was created, but `now + ttl` is not a
      representable `datetime`; the `OverflowError` that escapes names no
      path, and the new path stays on disk untracked. */
  datatype CreationError = FsRefused(path: Path) | ExpiryOutOfRange

  /** Every record is filed under its own path. */
  ghost predicate WellFormed(m: Manager)
  {
    forall k | k in m.files :: m.files[k].path == k
  }

  /** `m'` is `m` with a new auto-delete record for `path`, created at
      `created`; every other key keeps its presence and its record. */
  ghost predicate AddsEntry(m: Manager, m': Manager, path: Path, created: Instant)
  {
    && m'.baseDir == m.baseDir && m'.config == m.config
    && path in m'.files
    && m'.files[path].path == path && m'.files[path].created == created && m'.files[path].autoDelete
    && (forall k | k != path :: k in m'.files <==> k in m.files)
    && (forall k | k in m.files && k != path :: m'.files[k] == m.files[k])
  }

  /** `expires` is what a create records for `ttl` read at `now`: no expiry for a
      missing or zero ttl (Python's truthiness test), else `now + ttl` seconds,
      negative ttls included. */
  ghost predicate ExpiresPerTtl(expires: Option<Instant>, ttl: Option<int>, now: Instant)
  {
    && (expires.None? <==> (ttl.None? || ttl.value == 0))
    && (expires.Some? ==> expires.value == now + ttl.value * MicrosPerSecond)
  }

  /** The expiry of `ttl` read at `now` is representable (or there is none). */
  predicate ExpiryRepresentable(ttl: Option<int>, now: Instant)
  {
    ttl.None? || ttl.value == 0 || 0 <= now + ttl.value * MicrosPerSecond <= MaxInstant
  }

  /** `TempManager(base_dir, auto_cleanup, max_age)`, with the source's defaults:
      the base directory is the given one when it is a non-empty string, else
      `roadtemp` under the system temporary directory; `mkdirOk` says whether
      creating it succeeded. */
  function NewManager(baseDir: Option<Path>, systemTemp: Path, autoCleanup: bool := true, maxAge: int := 3600,
                      mkdirOk: bool := true): (r: Result<Manager, CreationError>)
    ensures r.Success? <==> mkdirOk
    ensures r.Success? ==> r.value.files == map[] && r.value.config == Config(autoCleanup, maxAge)
    ensures r.Success? && baseDir.Some? && baseDir.value != "" ==> r.value.baseDir == baseDir.value
    ensures r.Success? && (baseDir.None? || baseDir.value == "") ==>
              r.value.baseDir == Join(systemTemp, "roadtemp")
    ensures r.Success? ==> WellFormed(r.value)
  {
    var base := if baseDir.Some? && baseDir.value != "" then baseDir.value else Join(systemTemp, "roadtemp");
    if mkdirOk then Success(Manager(base, Config(autoCleanup, maxAge), map[]))
    else Failure(FsRefused(base))
  }

  /** `datetime.now() + timedelta(seconds=ttl) if ttl else None`, failing when the
      sum is not a representable `datetime`. */
  function Expiry(ttl: Option<int>, now: Instant): (e: Result<Option<Instant>, int>)
    ensures e.Success? <==> ExpiryRepresentable(ttl, now)
    ensures e.Success? ==> ExpiresPerTtl(e.value, ttl, now)
  {
    if ttl.None? || ttl.value == 0 then Success(None)
    else
      var t := now + ttl.value * MicrosPerSecond;
      if 0 <= t <= MaxInstant then Success(Some(t)) else Failure(t)
  }

  /** The registration step shared by both creates, done under the lock. */
  function Register(m: Manager, path: Path, expires: Option<Instant>, created: Instant): (m': Manager)
    ensures AddsEntry(m, m', path, created) && m'.files[path].expires == expires
    ensures path !in m.files ==> |m'.files| == |m.files| + 1
    ensures WellFormed(m) ==> WellFormed(m')
  {
    Manager(m.baseDir, m.config, m.files[path := Info(path, created, expires, true)])
  }

  /** `create_file(suffix, prefix, ttl)`, with the source's defaults. The name
      is `prefix + token + suffix` under the base directory, `token` standing
      for the random uuid hex. `touchOk` says whether creating the empty file
      succeeded. The clock is read twice: `tExpiry` for the expiry, then
      `tCreated` under the lock. On success the new path is tracked with its
      creation reading and its ttl's expiry, every other entry is untouched,
      and the registry grows by one when the name was fresh. It raises when
      the file cannot be created, or afterwards when the expiry overflows. */
  function CreateFile(m: Manager, token: string, touchOk: bool, tExpiry: Instant, tCreated: Instant,
                      suffix: string := "", prefix: string := "", ttl: Option<int> := None)
    : (r: Result<Created, CreationError>)
    ensures r.Success? <==> touchOk && ExpiryRepresentable(ttl, tExpiry)
    ensures !touchOk ==> r == Failure(FsRefused(Join(m.baseDir, prefix + token + suffix)))
    ensures touchOk && !ExpiryRepresentable(ttl, tExpiry) ==>
              r == Failure(ExpiryOutOfRange)
    ensures r.Success? ==> r.value.path == Join(m.baseDir, prefix + token + suffix)
    ensures r.Success? ==> AddsEntry(m, r.value.manager, r.value.path, tCreated)
    ensures r.Success? ==> ExpiresPerTtl(r.value.manager.files[r.value.path].expires, ttl, tExpiry)
    ensures r.Success? && r.value.path !in m.files ==> |r.value.manager.files| == |m.files| + 1
    ensures r.Success? && WellFormed(m) ==> WellFormed(r.value.manager)
  {
    var path := Join(m.baseDir, prefix + token + suffix);
    if !touchOk then Failure(FsRefused(path))
    else match Expiry(ttl, tExpiry)
      case Failure(_) => Failure(ExpiryOutOfRange)
      case Success(e) => Success(Created(Register(m, path, e, tCreated), path))
  }

  /** `create_dir(prefix, ttl)`: as `CreateFile`, with no suffix and an empty
      directory in place of the file. `mkdirOk` is false when `mkdir` raises
      (an existing path among other causes). */
  function CreateDir(m: Manager, token: string, mkdirOk: bool, tExpiry: Instant, tCreated: Instant,
                     prefix: string := "", ttl: Option<int> := None)
    : (r: Result<Created, CreationError>)
    ensures r.Success? <==> mkdirOk && ExpiryRepresentable(ttl, tExpiry)
    ensures !mkdirOk ==> r == Failure(FsRefused(Join(m.baseDir, prefix + token)))
    ensures mkdirOk && !ExpiryRepresentable(ttl, tExpiry) ==>
              r == Failure(ExpiryOutOfRange)
    ensures r.Success? ==> r.value.path == Join(m.baseDir, prefix + token)
    ensures r.Success? ==> AddsEntry(m, r.value.manager, r.value.path, tCreated)
    ensures r.Success? ==> ExpiresPerTtl(r.value.manager.files[r.value.path].expires, ttl, tExpiry)
    ensures r.Success? && r.value.path !in m.files ==> |r.value.manager.files| == |m.files| + 1
    ensures r.Success? && WellFormed(m) ==> WellFormed(r.value.manager)
  {
    var path := Join(m.baseDir, prefix + token);
    if !mkdirOk then Failure(FsRefused(path))
    else match Expiry(ttl, tExpiry)
      case Failure(_) => Failure(ExpiryOutOfRange)
      case Success(e) => Success(Created(Register(m, path, e, tCreated), path))
  }

  /** `list()`: a shallow snapshot of the registry, one record per key, in
      some order. The list is new but its records are the registry's own;
      here they are values, so a caller cannot change them through it. The
      manager is passed by value, so it is left as it was. */
  method ListEntries(m: Manager) returns (r: seq<Info>)
    ensures |r| == |m.files|
    ensures forall i | 0 <= i < |r| :: r[i] in m.files.Values
    ensures forall k | k in m.files :: m.files[k] in r
    ensures WellFormed(m) ==> forall i, j | 0 <= i < j < |r| :: r[i].path != r[j].path
  {
    r := [];
    var keys: seq<Path> := [];
    var rest := m.files.Keys;
    while rest != {}
      invariant rest <= m.files.Keys
      invariant |keys| == |r| && |r| + |rest| == |m.files|
      invariant forall i | 0 <= i < |keys| :: keys[i] in m.files && keys[i] !in rest && r[i] == m.files[keys[i]]
      invariant forall k | k in m.files && k !in rest :: k in keys
      invariant forall i, j | 0 <= i < j < |keys| :: keys[i] != keys[j]
      decreases rest
    {
      var k :| k in rest;
      r := r + [m.files[k]];
      keys := keys + [k];
      rest := rest - {k};
    }
    forall k | k in m.files
      ensures m.files[k] in r
    {
      var i :| 0 <= i < |keys| && keys[i] == k;
      assert r[i] == m.files[k];
    }
  }
}

=== FILE: sweep.dfy ===
/** `TempManager.cleanup(force)` and `__exit__`: the policy that picks
    entries for eviction, the eviction itself, and the count of successful
    removals. The filesystem is an oracle consulted once per evicted path. */
module Sweep {
  import opened Common
  import opened Registry

  /** What `is_file`/`is_dir` find at a path, and whether `unlink` (for a
      file) or `rmtree` (for a directory) would raise there. A path absent
      from the `FileSystem` map is neither a file nor a directory. */
  datatype Node = RegularFile(unlinkRaises: bool) | Directory(rmtreeRaises: bool)

  type FileSystem = map<Path, Node>

  /** The three eligibility tests of one cleanup pass, in the source's order;
      both time comparisons are strict. */
  predicate Eligible(c: Config, now: Instant, force: bool, info: Info)
  {
    || force
    || (info.expires.Some? && now > info.expires.value)
    || (c.autoCleanup && now - info.created > c.maxAge * MicrosPerSecond)
  }

  /** Removing `p` raises: it is a file and `unlink` fails, or it is a
      directory and `rmtree` fails. A path that is neither raises nothing. */
  predicate RemovalRaises(fs: FileSystem, p: Path)
  {
    p in fs && match fs[p]
               case RegularFile(raises) => raises
               case Directory(raises) => raises
  }

  /** The keys a pass selects (`to_remove`). */
  function Evicted(m: Manager, now: Instant, force: bool): (keys: set<Path>)
  {
    set k | k in m.files && Eligible(m.config, now, force, m.files[k])
  }

  /** Those of `keys` tracked in `files` whose removal raises nothing. */
  function Succeeded(files: map<Path, Info>, keys: set<Path>, fs: FileSystem): (ok: set<Path>)
  {
    set k | k in keys && k in files && !RemovalRaises(fs, files[k].path)
  }

  /** The selected keys whose removal raises nothing: the ones the pass counts. */
  function Reclaimed(m: Manager, now: Instant, force: bool, fs: FileSystem): (keys: set<Path>)
  {
    Succeeded(m.files, Evicted(m, now, force), fs)
  }

  /** The manager after a pass, and the count the pass returns. */
  datatype Swept = Swept(manager: Manager, count: nat)

  lemma CardOfSubset<T>(small: set<T>, big: set<T>)
    requires small <= big
    ensures |big - small| == |big| - |small|
  {
    assert big * small == small;
  }

  /** One cleanup pass as a whole: every eligible entry leaves the registry,
      whatever its removal does; every other entry stays as it was; the count
      is the number of evicted entries whose removal raised nothing, and so
      never exceeds the number evicted. */
  function Cleanup(m: Manager, now: Instant, fs: FileSystem, force: bool := false): (r: Swept)
    ensures r.manager.baseDir == m.baseDir && r.manager.config == m.config
    ensures forall k :: k in r.manager.files <==> k in m.files && !Eligible(m.config, now, force, m.files[k])
    ensures forall k | k in r.manager.files :: r.manager.files[k] == m.files[k]
    ensures forall k :: k in Reclaimed(m, now, force, fs) <==>
              k in m.files && Eligible(m.config, now, force, m.files[k]) && !RemovalRaises(fs, m.files[k].path)
    ensures r.count == |Reclaimed(m, now, force, fs)|
    ensures |r.manager.files| + |Evicted(m, now, force)| == |m.files|
    ensures r.count <= |m.files| - |r.manager.files|
    ensures WellFormed(m) ==> WellFormed(r.manager)
  {
    var evicted := Evicted(m, now, force);
    var reclaimed := Reclaimed(m, now, force, fs);
    var rest := m.files - evicted;
    assert rest.Keys == m.files.Keys - evicted;
    CardOfSubset(evicted, m.files.Keys);
    CardOfSubset(reclaimed, evicted);
    Swept(Manager(m.baseDir, m.config, rest), |reclaimed|)
  }

  /** The first loop of a pass: visit every key once and apply the three
      tests in order, collecting `to_remove`. */
  method SelectEvicted(m: Manager, now: Instant, force: bool) returns (toRemove: set<Path>)
    ensures toRemove == Evicted(m, now, force)
  {
    toRemove := {};
    var pending := m.files.Keys;
    while pending != {}
      invariant pending <= m.files.Keys
      invariant forall k :: k in toRemove <==>
                  k in m.files && k !in pending && Eligible(m.config, now, force, m.files[k])
      decreases pending
    {
      var key :| key in pending;
      var info := m.files[key];
      var shouldRemove := force;
      if !shouldRemove && info.expires.Some? && now > info.expires.value {
        shouldRemove := true;
      }
      if !shouldRemove && m.config.autoCleanup {
        var age := now - info.created;
        if age > m.config.maxAge * MicrosPerSecond {
          shouldRemove := true;
        }
      }
      if shouldRemove {
        toRemove := toRemove + {key};
      }
      pending := pending - {key};
    }
  }

  /** The second loop of a pass: pop every selected key, and count it when
      removing its path raises nothing. A failed removal is logged and the
      key is dropped all the same. */
  method EvictAll(files0: map<Path, Info>, fs: FileSystem, toRemove: set<Path>)
    returns (files: map<Path, Info>, count: nat)
    requires toRemove <= files0.Keys
    ensures files == files0 - toRemove
    ensures count == |Succeeded(files0, toRemove, fs)|
  {
    files := files0;
    var left := toRemove;
    ghost var done: set<Path> := {};
    count := 0;
    while left != {}
      invariant left <= toRemove && done == toRemove - left
      invariant files == files0 - done
      invariant count == |Succeeded(files0, done, fs)|
      decreases left
    {
      var key :| key in left;
      var info := files[key];
      SucceededAdd(files0, done, key, fs);
      files := files - {key};
      if !RemovalRaises(fs, info.path) {
        count := count + 1;
      }
      left := left - {key};
      done := done + {key};
    }
    assert done == toRemove;
  }

  lemma SucceededAdd(files: map<Path, Info>, done: set<Path>, key: Path, fs: FileSystem)
    requires key in files && key !in done
    ensures !RemovalRaises(fs, files[key].path) ==>
              Succeeded(files, done + {key}, fs) == Succeeded(files, done, fs) + {key}
    ensures RemovalRaises(fs, files[key].path) ==>
              Succeeded(files, done + {key}, fs) == Succeeded(files, done, fs)
  {
  }

  /** The pass as the source runs it, selection then eviction under one lock.
      It agrees with `Cleanup`. */
  method CleanupPass(m: Manager, now: Instant, fs: FileSystem, force: bool := false)
    returns (m': Manager, count: nat)
    ensures m'.baseDir == m.baseDir && m'.config == m.config
    ensures forall k :: k in m'.files <==> k in m.files && !Eligible(m.config, now, force, m.files[k])
    ensures forall k | k in m'.files :: m'.files[k] == m.files[k]
    ensures count == |Reclaimed(m, now, force, fs)|
    ensures Swept(m', count) == Cleanup(m, now, fs, force)
  {
    var toRemove := SelectEvicted(m, now, force);
    var files;
    files, count := EvictAll(m.files, fs, toRemove);
    m' := Manager(m.baseDir, m.config, files);
  }

  /** `__exit__`: a forced pass, `cleanup(force=True)`. `__exit__` itself
      returns `None`; `count` is the inner pass's result, which it discards. */
  function Exit(m: Manager, now: Instant, fs: FileSystem): (r: Swept)
    ensures r.manager.files == map[]
    ensures r.manager.config == m.config && r.manager.baseDir == m.baseDir
    ensures forall k :: k in Reclaimed(m, now, true, fs) <==> k in m.files && !RemovalRaises(fs, m.files[k].path)
    ensures r.count == |Reclaimed(m, now, true, fs)| <= |m.files|
  {
    Cleanup(m, now, fs, true)
  }
}
